=== FILE: README.md ===
# Playback-progress tracker of the lecture view

This project models the playback-progress tracker of the course platform's lecture view, `DisplayLectures`. It also models the persisted progress record that the tracker's pushes end up in. Both are written in Dafny and proved.

The tracker keeps three values across renders:
- the last played time;
- the captured duration;
- whether the active lecture was already resumed.

It reacts to the events of the `<video>` element: loaded-metadata, time-update, pause and ended. It resumes each lecture once at its stored position. When the active lecture changes or the view unmounts, it flushes the last captured position. Each sync is a push to the server. UI-visible syncs also write optimistically into the in-memory progress map. The map is hydrated from the bulk fetch of the course's records, and the sidebar derives a percentage from it.

Modules:
- `Wrappers` (`wrappers.dfy`): `Option` and `Result`.
- `VideoProgress` (`video_progress.dfy`): the record schema, covering the required identity triple, the defaults and the timestamps. The collection is a sequence of records with no uniqueness on the triple.
- `ProgressMap` (`progress_map.dfy`): map entries, hydration (with a "later record wins" reference definition), the optimistic OR-merge, and the sidebar percentage and badge.
- `PlaybackTracker` (`playback_tracker.dfy`): the tracker state, the shared update routine, every handler, resume-once, the teardown flush and lecture selection.
- `Session` (`session.dfy`): the handlers driven by a sequence of events, with the properties that hold across a whole run.

Inputs and outputs are modelled as follows:
- The video element is an input snapshot `Option<Video>` (current time, duration, ended), where `None` means no element is mounted.
- A network call becomes an emitted `Push`.
- Writing the element's `currentTime` becomes an emitted seek position.
- A fetch response is `Option<seq<ProgressRecord>>`, where `None` stands for a failed or unsuccessful request.
- The document id and the creation instant of a new record are parameters.

React's effect order is explicit. On a lecture switch, the cleanup of the previous effect flushes the old lecture's captured values under the old lecture's id. Only then does the reset effect zero the tracker and rewind the element. Selecting the already-active lecture id runs neither effect. The resume effect is its own event, because React runs it after every selection and after every change of the progress map.

Observations the proofs make explicit:
- The push carries the freshly computed completion flag. Only the map OR-merges it (`PushCarriesRawFlag`), so a pause after the end sends `completed = false` while the sidebar keeps 100 %.
- A switch away from a lecture before any position or duration was captured pushes a zero position and a zero duration (`FlushWithoutCaptureRecordsZero`).
- The metadata handler overwrites the captured duration even with 0, while the update routine keeps a positive one (`MetadataOverwritesDuration`).
- The throttle test in `DisplayLectures.jsx` uses JavaScript's truncating `%`, and Dafny's `%` is Euclidean. The model only compares the remainder with 0, and both operators agree on that.

## Model

| member | source | states |
|---|---|---|
| VideoProgress.Create | server/models/videoProgress.js:3-32 | a record is created iff user, lecture and course ids are all supplied; the error lists exactly the missing required paths; an omitted time or duration defaults to 0 and an omitted `completed` to false; both timestamps are the creation instant |
| VideoProgress.Insert | server/models/videoProgress.js:3-34 | creating a document appends exactly the record `Create` builds (the draft's identity, its progress fields or their defaults, the document id and both timestamps at the creation instant) and keeps every earlier record; a rejected draft leaves the store unchanged and reports the missing paths |
| VideoProgress.NoUniqueIndex | server/models/videoProgress.js:3-32 | with no unique index on (user, course, lecture), two creations with the same triple both succeed and the store then holds two more records with that triple |
| ProgressMap.HydrateInto | client/src/Pages/Dashboard/DisplayLectures.jsx:56-58 | applying the per-record assignments in order yields, for every lecture id, the last record with that id, and keeps untouched keys |
| ProgressMap.Hydrate | client/src/Pages/Dashboard/DisplayLectures.jsx:55-59 | the fetched map has exactly the lecture ids of the response as keys, each holding the entry of the last record with that id |
| ProgressMap.LaterRecordWins | client/src/Pages/Dashboard/DisplayLectures.jsx:55-58 | the last record carrying a lecture id supplies that id's entry, whatever earlier records with the same id held |
| ProgressMap.ApplyOptimistic | client/src/Pages/Dashboard/DisplayLectures.jsx:98-107 | the optimistic write sets time and duration, ORs `completed` with the previous entry, keeps the entry's other fields, and changes no other lecture's entry |
| ProgressMap.ApplyOptimisticIdempotent | client/src/Pages/Dashboard/DisplayLectures.jsx:98-107 | repeating the same optimistic write leaves the map as the first write did |
| ProgressMap.WritesKeepCompletion | client/src/Pages/Dashboard/DisplayLectures.jsx:98-107 | any sequence of optimistic writes keeps every entry and never turns a completed entry back to incomplete |
| ProgressMap.Round | client/src/Pages/Dashboard/DisplayLectures.jsx:238 | rounding returns the nearest integer, with halves going up |
| ProgressMap.Percent | client/src/Pages/Dashboard/DisplayLectures.jsx:235-240 | the percentage is 100 for a completed entry, 0 with no entry or no positive duration, and otherwise the watched fraction rounded to the nearest integer |
| ProgressMap.PercentInRange | client/src/Pages/Dashboard/DisplayLectures.jsx:236-240 | a position within the video gives a percentage between 0 and 100 |
| ProgressMap.BadgeShown | client/src/Pages/Dashboard/DisplayLectures.jsx:260 | a badge is shown iff the lecture has an entry and its percentage is not negative, so always for an entry with a non-negative position |
| PlaybackTracker.CompletionBoundary | client/src/Pages/Dashboard/DisplayLectures.jsx:95 | with a 100 s video, a time counts as complete iff it is at least 98 s; 98 s completes, 97 s does not; a reported end always completes |
| PlaybackTracker.ThrottleCadence | client/src/Pages/Dashboard/DisplayLectures.jsx:160 | over 0 to 21 s, a tick syncs iff its whole second is 0, 5, 10, 15 or 20 |
| PlaybackTracker.ThrottlePeriodic | client/src/Pages/Dashboard/DisplayLectures.jsx:160 | a tick syncs iff the tick five seconds later does |
| PlaybackTracker.HandleProgressUpdate | client/src/Pages/Dashboard/DisplayLectures.jsx:78-119 | no active lecture means no push and no change; otherwise the routine pushes for the active lecture. It samples the element and updates the captured time, and the duration only when positive, unless it is tearing down or no element is mounted; in that case it uses the captured values with `ended` false. The flag follows the completion rule. A silent update leaves the map unchanged; a visible one writes the pushed values with the OR-merge |
| PlaybackTracker.PushCarriesRawFlag | client/src/Pages/Dashboard/DisplayLectures.jsx:98-115 | a completed entry stays completed in the map while the push carries the freshly computed flag, which is false when the sample is not complete |
| PlaybackTracker.Flush | client/src/Pages/Dashboard/DisplayLectures.jsx:139-145 | the teardown flush gives the same result whatever the element reports; it pushes the captured time and duration with `ended` false and leaves the tracker unchanged |
| PlaybackTracker.FlushWithoutCaptureRecordsZero | client/src/Pages/Dashboard/DisplayLectures.jsx:81-93 | a flush before anything was captured pushes position 0, duration 0, incomplete, and writes position 0 into the map |
| PlaybackTracker.OnLoadedMetadata | client/src/Pages/Dashboard/DisplayLectures.jsx:148-152 | the duration the element reports is stored unconditionally and nothing else changes; with no element nothing changes |
| PlaybackTracker.MetadataOverwritesDuration | client/src/Pages/Dashboard/DisplayLectures.jsx:148-152 | metadata reporting 0 clears a captured positive duration, where the update routine would keep it |
| PlaybackTracker.OnTimeUpdate | client/src/Pages/Dashboard/DisplayLectures.jsx:155-165 | every tick with an element captures its time; a push is sent iff an element is mounted, a lecture is active and the tick's whole second is a multiple of 5; the push carries the sampled values and the map is untouched; the captured duration changes only on a pushing tick that reports a positive duration |
| PlaybackTracker.OnPauseOrEnded | client/src/Pages/Dashboard/DisplayLectures.jsx:167-177 | with no active lecture nothing happens; otherwise pause and ended push to the view's course and the active lecture the element's time and duration with the completion rule applied to them (or, with no element mounted, the captured time and duration with `ended` false), capture the time (and the duration when positive), and apply the optimistic write of the pushed values to the lecture's entry (OR-merged flag, fetched fields kept), leaving every other entry unchanged; an ended element completes both the push and the entry |
| PlaybackTracker.TryResume | client/src/Pages/Dashboard/DisplayLectures.jsx:122-135 | it seeks iff a lecture is active, an element is mounted, the lecture is not yet resumed and its stored position is positive; it then seeks to that position, captures it and marks the lecture resumed. A non-positive stored position only marks the lecture resumed, and without an entry nothing changes |
| PlaybackTracker.ResumeOnce | client/src/Pages/Dashboard/DisplayLectures.jsx:122-135 | after a resume that sought, a second call neither seeks nor changes the view; two consecutive calls never both seek |
| PlaybackTracker.ResumeScenario | client/src/Pages/Dashboard/DisplayLectures.jsx:122-135 | with a stored position of 42 s, the first call seeks to 42 s and captures it, and the second call does not seek |
| PlaybackTracker.SelectLecture | client/src/Pages/Dashboard/DisplayLectures.jsx:67-76 | selecting another lecture flushes the old lecture first, then resets the tracker to (0, 0, not resumed) and rewinds a mounted element to 0; selecting the active lecture changes nothing |
| PlaybackTracker.SwitchFlushesOldLecture | client/src/Pages/Dashboard/DisplayLectures.jsx:139-145 | a switch pushes the old lecture's captured values under the old id, adds or changes no entry other than the old lecture's (every other entry keeps its value, the new lecture's included), and resets the tracker |
| PlaybackTracker.OnProgressFetched | client/src/Pages/Dashboard/DisplayLectures.jsx:51-64 | a successful fetch replaces only the map, with one entry per lecture id from the last record with that id; a failed fetch changes nothing |
| Session.Apply | client/src/Pages/Dashboard/DisplayLectures.jsx:51-177 | no event except a fetch loses an entry or un-completes one; only a selection changes the active lecture or clears the resumed flag; apart from a selection's rewind, a seek happens only on an unresumed lecture and marks it resumed; selecting another lecture makes it active, clears the resumed flag and rewinds a mounted element to 0, and selecting the active lecture changes nothing |
| Session.StickyCompletion | client/src/Pages/Dashboard/DisplayLectures.jsx:98-107 | over any run without a bulk fetch, every entry stays in the map and a completed entry stays completed |
| Session.ResumeSeeksAtMostOnce | client/src/Pages/Dashboard/DisplayLectures.jsx:122-135 | while the same lecture stays active, a run seeks at most once, and never once the lecture is resumed |
| Session.WatchToEndScenario | client/src/Pages/Dashboard/DisplayLectures.jsx:78-177 | for a 120 s lecture: pause at 30 s pushes (30, 120, incomplete) and shows 25 %; the tick at 115 s pushes silently; the tick at 119 s pushes nothing; ended at 119 s pushes a completed record and shows 100 % |
| Session.TeardownScenario | client/src/Pages/Dashboard/DisplayLectures.jsx:81-93 | when the element reports 0 just before a switch, the flush still pushes the captured 73 s for the old lecture and then rewinds |

## Left out

- Network calls: the POSTs and GETs are emitted pushes or given responses. Their failures are caught and logged by the component and change no state, so a failed push is not modelled.
- Logging: `console.log` and `console.error` have no effect on state.
- The lecture-list fetch, the redirect when no course is given, role checks and all JSX layout are not modelled. The active lecture is the input `View.lecture`.
- The view's unmount is the same `Flush` as the flush on a lecture switch. The map and tracker it leaves behind are discarded with the view.
- Floating point: times and durations are reals. NaN and infinite durations, and the float error of `Math.round` (which the model takes as floor(x + 0.5) over the reals), are not modelled.
- In the optimistic merge with no previous entry, `DisplayLectures.jsx` stores `false || undefined`, which is `undefined` and reads as falsy. The model stores `false`.
- The server-side progress handlers (`updateVideoProgress`, `getVideoProgress`) and the controllers are not part of this model. So the server upsert, its field overwrite and the per-course query are not modelled. The store only models creation under the schema.
- Mongoose type casting and the `updatedAt` refresh on later saves are not modelled. Both belong to the store, not to the schema's declared contract.
- Authentication, course and lecture management, routing and Redux wiring are outside the tracker.

=== FILE: playback_tracker.dfy ===
/**
  The playback-progress tracker of the lecture view.

  The view keeps three values across renders (last played time, captured
  duration, whether the current lecture was already resumed) and reacts to the
  events of the `<video>` element. Every handler is a pure transition here: it
  takes the view and a snapshot of what the element reports (`None` when no
  element is mounted) and returns the new view together with the progress push
  it sends to the server and the position it seeks the element to, if any.
*/
module PlaybackTracker {
  import opened Wrappers
  import opened VideoProgress
  import opened ProgressMap

  /** The three refs: last played time, captured duration, resumed flag. */
  datatype TrackerState = TrackerState(lastPlayedTime: real, duration: real, hasResumed: bool)

  /** The tracker of a lecture that was just activated. */
  const Fresh: TrackerState := TrackerState(0.0, 0.0, false)

  /** What the video element reports when a handler reads it. */
  datatype Video = Video(currentTime: real, duration: real, ended: bool)

  /** The body of one POST to the progress endpoint of `lectureId` in `courseId`. */
  datatype Push = Push(courseId: ObjectId, lectureId: ObjectId, lastWatchedTime: real, duration: real, completed: bool)

  /** The view: the course it shows, the active lecture (if the list has loaded), the tracker and the progress map. */
  datatype View = View(courseId: ObjectId, lecture: Option<ObjectId>, tracker: TrackerState, progress: ProgressMap)

  /** The result of one handler: the new view, the push it sends, the position it seeks the element to. */
  datatype Step = Step(view: View, push: Option<Push>, seek: Option<real>)

  /** Seconds before the end that already count as finished. */
  const CompletionTolerance: real := 2.0

  /** Seconds between two silent syncs during playback. */
  const ThrottleInterval: int := 5

  /** The completion rule every sync applies. */
  predicate IsCompleted(currentTime: real, duration: real, ended: bool) {
    (duration > 0.0 && currentTime >= duration - CompletionTolerance) || ended
  }

  /** With a 100 s video, 98 s is complete and 97 s is not, unless the element reports it ended. */
  lemma CompletionBoundary(t: real)
    ensures IsCompleted(t, 100.0, false) <==> t >= 98.0
    ensures IsCompleted(98.0, 100.0, false) && !IsCompleted(97.0, 100.0, false)
    ensures IsCompleted(t, 100.0, true)
  {
  }

  /** A time-update at `currentTime` triggers a silent sync. */
  predicate ThrottleDue(currentTime: real) {
    currentTime.Floor % ThrottleInterval == 0
  }

  /** Over the first 21 seconds only the ticks whose whole second is 0, 5, 10, 15 or 20 sync. */
  lemma ThrottleCadence(t: real)
    requires 0.0 <= t < 21.0
    ensures ThrottleDue(t) <==> t.Floor in {0, 5, 10, 15, 20}
  {
  }

  /** The throttle repeats every interval: a tick syncs exactly when the tick five seconds later does. */
  lemma ThrottlePeriodic(t: real)
    ensures ThrottleDue(t) <==> ThrottleDue(t + 5.0)
  {
  }

  /**
    The shared update routine. Outside teardown and with an element mounted it
    samples the element and records the sample in the tracker (the duration only
    when positive); otherwise it uses the captured values with `ended` false.
    A UI-visible update OR-merges into the map; the push always carries the raw
    completion flag and exactly the time and duration written to the map.
  */
  function HandleProgressUpdate(v: View, video: Option<Video>, isCleanup: bool, shouldUpdateUI: bool): (s: Step)
    ensures s.seek.None?
    ensures s.view.courseId == v.courseId && s.view.lecture == v.lecture
    ensures s.view.tracker.hasResumed == v.tracker.hasResumed
    ensures v.lecture.None? ==> s.view == v && s.push.None?
    ensures v.lecture.Some? ==> s.push.Some? && s.push.value.courseId == v.courseId && s.push.value.lectureId == v.lecture.value
    ensures v.lecture.Some? && (isCleanup || video.None?) ==>
      && s.view.tracker == v.tracker
      && s.push.value.lastWatchedTime == v.tracker.lastPlayedTime
      && s.push.value.duration == v.tracker.duration
      && s.push.value.completed == IsCompleted(v.tracker.lastPlayedTime, v.tracker.duration, false)
    ensures v.lecture.Some? && !isCleanup && video.Some? ==>
      && s.push.value.lastWatchedTime == video.value.currentTime
      && s.push.value.duration == video.value.duration
      && s.push.value.completed == IsCompleted(video.value.currentTime, video.value.duration, video.value.ended)
      && s.view.tracker.lastPlayedTime == video.value.currentTime
      && s.view.tracker.duration == (if video.value.duration > 0.0 then video.value.duration else v.tracker.duration)
    ensures !shouldUpdateUI ==> s.view.progress == v.progress
    ensures v.lecture.Some? && shouldUpdateUI ==>
      s.view.progress == ApplyOptimistic(v.progress, v.lecture.value,
        s.push.value.lastWatchedTime, s.push.value.duration, s.push.value.completed)
  {
    match v.lecture
    case None => Step(v, None, None)
    case Some(id) =>
      var live := video.Some? && !isCleanup;
      var currentTime := if live then video.value.currentTime else v.tracker.lastPlayedTime;
      var duration := if live then video.value.duration else v.tracker.duration;
      var ended := live && video.value.ended;
      var tracker :=
        if live then
          v.tracker.(lastPlayedTime := currentTime,
                     duration := if duration > 0.0 then duration else v.tracker.duration)
        else v.tracker;
      var completed := IsCompleted(currentTime, duration, ended);
      var progress := if shouldUpdateUI then ApplyOptimistic(v.progress, id, currentTime, duration, completed) else v.progress;
      Step(v.(tracker := tracker, progress := progress), Some(Push(v.courseId, id, currentTime, duration, completed)), None)
  }

  /** The UI merge keeps completion sticky while the push still carries the freshly computed flag. */
  lemma PushCarriesRawFlag(v: View, video: Option<Video>, isCleanup: bool)
    requires v.lecture.Some? && v.lecture.value in v.progress && v.progress[v.lecture.value].completed
    ensures
      var s := HandleProgressUpdate(v, video, isCleanup, true);
      && s.view.progress[v.lecture.value].completed
      && (!isCleanup && video.Some? && !IsCompleted(video.value.currentTime, video.value.duration, video.value.ended) ==>
            !s.push.value.completed)
  {
  }

  /**
    The flush that runs when the active lecture changes or the view unmounts. It
    never looks at the element: whatever the element reports, the push and the
    map write use the captured time and duration, with `ended` false.
  */
  function Flush(v: View): (s: Step)
    ensures forall video :: s == HandleProgressUpdate(v, video, true, true)
    ensures s.view.tracker == v.tracker && s.seek.None?
    ensures v.lecture.Some? ==>
      s.push == Some(Push(v.courseId, v.lecture.value, v.tracker.lastPlayedTime, v.tracker.duration,
                          IsCompleted(v.tracker.lastPlayedTime, v.tracker.duration, false)))
    ensures v.lecture.None? ==> s == Step(v, None, None)
  {
    HandleProgressUpdate(v, None, true, true)
  }

  /**
    Switching away from a lecture before any position or duration was captured
    records a zero position and a zero duration for it, on the server and in the
    map (only the map keeps an earlier completion).
  */
  lemma FlushWithoutCaptureRecordsZero(v: View)
    requires v.lecture.Some? && v.tracker.lastPlayedTime == 0.0 && v.tracker.duration == 0.0
    ensures Flush(v).push == Some(Push(v.courseId, v.lecture.value, 0.0, 0.0, false))
    ensures Flush(v).view.progress[v.lecture.value].lastWatchedTime == 0.0
  {
  }

  /** The metadata handler stores whatever duration the element reports, zero included. */
  function OnLoadedMetadata(v: View, video: Option<Video>): (w: View)
    ensures video.Some? ==> w == v.(tracker := v.tracker.(duration := video.value.duration))
    ensures video.None? ==> w == v
  {
    match video
    case None => v
    case Some(el) => v.(tracker := v.tracker.(duration := el.duration))
  }

  /**
    Unlike the update routine, which keeps a positive captured duration when the
    element reports none, the metadata handler overwrites it.
  */
  lemma MetadataOverwritesDuration(v: View, el: Video)
    requires v.lecture.Some? && v.tracker.duration > 0.0 && el.duration == 0.0
    ensures OnLoadedMetadata(v, Some(el)).tracker.duration == 0.0
    ensures HandleProgressUpdate(v, Some(el), false, false).view.tracker.duration == v.tracker.duration
  {
  }

  /**
    The time-update handler: always records the position; on a tick whose whole
    second is a multiple of the interval it sends a silent sync, which leaves the
    map alone.
  */
  function OnTimeUpdate(v: View, video: Option<Video>): (s: Step)
    ensures video.None? ==> s == Step(v, None, None)
    ensures video.Some? ==> s.view.tracker.lastPlayedTime == video.value.currentTime
    ensures video.Some? ==>
      s.view.tracker.duration ==
        (if v.lecture.Some? && ThrottleDue(video.value.currentTime) && video.value.duration > 0.0
         then video.value.duration else v.tracker.duration)
    ensures s.push.Some? <==> video.Some? && v.lecture.Some? && ThrottleDue(video.value.currentTime)
    ensures s.push.Some? ==>
      s.push.value == Push(v.courseId, v.lecture.value, video.value.currentTime, video.value.duration,
                           IsCompleted(video.value.currentTime, video.value.duration, video.value.ended))
    ensures s.view.progress == v.progress && s.view.lecture == v.lecture && s.view.courseId == v.courseId && s.seek.None?
    ensures s.view.tracker.hasResumed == v.tracker.hasResumed
  {
    match video
    case None => Step(v, None, None)
    case Some(el) =>
      var w := v.(tracker := v.tracker.(lastPlayedTime := el.currentTime));
      if ThrottleDue(el.currentTime) then HandleProgressUpdate(w, video, false, false)
      else Step(w, None, None)
  }

  /** The pause and ended handlers: an immediate, UI-visible sync of the element's state. */
  function OnPauseOrEnded(v: View, video: Option<Video>): (s: Step)
    ensures s.seek.None? && s.view.lecture == v.lecture && s.view.courseId == v.courseId
    ensures s.view.tracker.hasResumed == v.tracker.hasResumed
    ensures v.lecture.None? ==> s == Step(v, None, None)
    ensures v.lecture.Some? && video.None? ==>
      && s.view.tracker == v.tracker
      && s.push == Some(Push(v.courseId, v.lecture.value, v.tracker.lastPlayedTime, v.tracker.duration,
                             IsCompleted(v.tracker.lastPlayedTime, v.tracker.duration, false)))
    ensures v.lecture.Some? && video.Some? ==>
      && s.push.Some?
      && s.push.value.completed == IsCompleted(video.value.currentTime, video.value.duration, video.value.ended)
    ensures v.lecture.Some? && video.Some? ==>
      && s.view.tracker.lastPlayedTime == video.value.currentTime
      && s.view.tracker.duration == (if video.value.duration > 0.0 then video.value.duration else v.tracker.duration)
      && s.push.Some? && s.push.value.duration == video.value.duration
    ensures v.lecture.Some? ==>
      var id := v.lecture.value;
      && s.push.Some?
      && s.push.value.courseId == v.courseId && s.push.value.lectureId == id
      && (forall k :: k in v.progress && k != id ==> k in s.view.progress && s.view.progress[k] == v.progress[k])
      && (forall k :: k in s.view.progress ==> k in v.progress || k == id)
      && id in s.view.progress
      && s.view.progress[id].lastWatchedTime == s.push.value.lastWatchedTime
      && s.view.progress[id].duration == s.push.value.duration
      && (s.view.progress[id].completed <==> s.push.value.completed || (id in v.progress && v.progress[id].completed))
      && (video.Some? ==> s.push.value.lastWatchedTime == video.value.currentTime)
      && (video.Some? && video.value.ended ==> s.push.value.completed && s.view.progress[id].completed)
    ensures v.lecture.Some? ==>
      s.push.Some? &&
      s.view.progress == ApplyOptimistic(v.progress, v.lecture.value,
        s.push.value.lastWatchedTime, s.push.value.duration, s.push.value.completed)
    ensures KeepsCompletion(v.progress, s.view.progress)
  {
    HandleProgressUpdate(v, video, false, true)
  }

  /**
    The resume effect. Once per activation, when an element is mounted and the
    map has an entry for the lecture: a positive stored position is sought to and
    captured; a zero one only marks the lecture as resumed. Without an entry
    nothing changes, so a later call can still resume.
  */
  function TryResume(v: View, videoMounted: bool): (s: Step)
    ensures s.push.None? && s.view.progress == v.progress && s.view.lecture == v.lecture && s.view.courseId == v.courseId
    ensures s.seek.Some? <==>
      && v.lecture.Some? && videoMounted && !v.tracker.hasResumed
      && v.lecture.value in v.progress && v.progress[v.lecture.value].lastWatchedTime > 0.0
    ensures s.seek.Some? ==>
      && s.seek.value == v.progress[v.lecture.value].lastWatchedTime
      && s.view.tracker == v.tracker.(lastPlayedTime := s.seek.value, hasResumed := true)
    ensures v.lecture.Some? && videoMounted && !v.tracker.hasResumed && v.lecture.value in v.progress
            && v.progress[v.lecture.value].lastWatchedTime <= 0.0 ==>
      s.view.tracker == v.tracker.(hasResumed := true)
    ensures v.lecture.None? || !videoMounted || v.tracker.hasResumed || v.lecture.value !in v.progress ==>
      s.view == v
    ensures v.tracker.hasResumed ==> s.view.tracker.hasResumed
  {
    if v.lecture.None? || !videoMounted || v.tracker.hasResumed then Step(v, None, None)
    else
      match Get(v.progress, v.lecture.value)
      case None => Step(v, None, None)
      case Some(stored) =>
        if stored.lastWatchedTime > 0.0 then
          Step(v.(tracker := v.tracker.(lastPlayedTime := stored.lastWatchedTime, hasResumed := true)),
               None, Some(stored.lastWatchedTime))
        else
          Step(v.(tracker := v.tracker.(hasResumed := true)), None, None)
  }

  /** A resume that sought leaves nothing for a second call to do: it neither seeks nor changes the view. */
  lemma ResumeOnce(v: View, mounted1: bool, mounted2: bool)
    ensures
      var first := TryResume(v, mounted1);
      var second := TryResume(first.view, mounted2);
      first.seek.Some? ==> second.seek.None? && second.view == first.view
    ensures
      var first := TryResume(v, mounted1);
      var second := TryResume(first.view, mounted2);
      !(first.seek.Some? && second.seek.Some?)
  {
  }

  /** With the lecture stored at 42 s, resuming twice seeks to 42 s on the first call only. */
  lemma ResumeScenario(course: ObjectId, lecture: ObjectId, e: Entry)
    requires e.lastWatchedTime == 42.0
    ensures
      var v := View(course, Some(lecture), Fresh, map[lecture := e]);
      var first := TryResume(v, true);
      var second := TryResume(first.view, true);
      && first.seek == Some(42.0)
      && first.view.tracker.lastPlayedTime == 42.0
      && second.seek.None?
  {
  }

  /**
    Selecting another lecture: the teardown flush of the old lecture runs first,
    then the tracker is reset and a mounted element is rewound to 0. Selecting
    the lecture that is already active changes nothing.
  */
  function SelectLecture(v: View, next: Option<ObjectId>, videoMounted: bool): (s: Step)
    ensures next == v.lecture ==> s == Step(v, None, None)
    ensures next != v.lecture ==>
      && s.view.lecture == next
      && s.view.courseId == v.courseId
      && s.view.tracker == Fresh
      && s.push == Flush(v).push
      && s.view.progress == Flush(v).view.progress
      && s.seek == (if videoMounted then Some(0.0) else None)
  {
    if next == v.lecture then Step(v, None, None)
    else
      var flushed := Flush(v);
      Step(flushed.view.(lecture := next, tracker := Fresh), flushed.push,
           if videoMounted then Some(0.0) else None)
  }

  /**
    A switch pushes the old lecture's captured values under the old lecture's
    id, writes only the old lecture's entry, and leaves the new lecture's entry
    as it was.
  */
  lemma SwitchFlushesOldLecture(v: View, next: ObjectId, videoMounted: bool)
    requires v.lecture.Some? && v.lecture.value != next
    ensures
      var s := SelectLecture(v, Some(next), videoMounted);
      var prev := v.lecture.value;
      && s.push.Some? && s.push.value.lectureId == prev
      && s.push.value.lastWatchedTime == v.tracker.lastPlayedTime
      && s.push.value.duration == v.tracker.duration
      && (forall k :: k in v.progress && k != prev ==> k in s.view.progress && s.view.progress[k] == v.progress[k])
      && (forall k :: k in s.view.progress ==> k in v.progress || k == prev)
      && (next in v.progress ==> next in s.view.progress && s.view.progress[next] == v.progress[next])
      && s.view.tracker == Fresh
  {
  }

  /** The bulk fetch: a successful response replaces the map; a failed one leaves it. */
  function OnProgressFetched(v: View, response: Option<seq<ProgressRecord>>): (w: View)
    ensures response.None? ==> w == v
    ensures response.Some? ==>
      && w == v.(progress := w.progress)
      && (forall id :: id in w.progress <==> exists i :: 0 <= i < |response.value| && response.value[i].lectureId == id)
      && (forall id :: id in w.progress ==> w.progress[id] == FromRecord(LastWith(response.value, id).value))
  {
    match response
    case None => v
    case Some(rs) => v.(progress := Hydrate(rs))
  }
}

=== FILE: progress_map.dfy ===
/**
  The in-memory progress map of the lecture view: lecture id to the last known
  progress of that lecture. It is hydrated from the bulk fetch of the course's
  records, patched by optimistic writes of the tracker, and read by the sidebar
  to derive a percentage and decide whether to show a badge.
*/
module ProgressMap {
  import opened Wrappers
  import opened VideoProgress

  /** The fields of a fetched record other than the three progress fields; an optimistic write keeps them. */
  datatype RecordMeta = RecordMeta(
    recordId: ObjectId,
    userId: ObjectId,
    lectureId: ObjectId,
    courseId: ObjectId,
    createdAt: Timestamp,
    updatedAt: Timestamp)

  /**
    One value of the map. `meta` is `None` for an entry that an optimistic write
    created without a fetched record under it.
  */
  datatype Entry = Entry(meta: Option<RecordMeta>, lastWatchedTime: real, duration: real, completed: bool)

  type ProgressMap = map<ObjectId, Entry>

  /** The entry a fetched record becomes, unchanged field for field. */
  function FromRecord(r: ProgressRecord): (e: Entry)
    ensures e.meta == Some(RecordMeta(r.recordId, r.userId, r.lectureId, r.courseId, r.createdAt, r.updatedAt))
    ensures e.lastWatchedTime == r.lastWatchedTime && e.duration == r.duration && e.completed == r.completed
  {
    Entry(Some(RecordMeta(r.recordId, r.userId, r.lectureId, r.courseId, r.createdAt, r.updatedAt)),
          r.lastWatchedTime, r.duration, r.completed)
  }

  function Get(m: ProgressMap, id: ObjectId): Option<Entry> {
    if id in m then Some(m[id]) else None
  }

  // ---------------------------------------------------------------------------
  // Hydration

  /**
    Reference definition of "a later record wins": the last record of `rs` whose
    lecture id is `id`, if any.
  */
  function LastWith(rs: seq<ProgressRecord>, id: ObjectId): (r: Option<ProgressRecord>)
    ensures r.Some? ==> r.value in rs && r.value.lectureId == id
    ensures r.None? <==> forall i :: 0 <= i < |rs| ==> rs[i].lectureId != id
  {
    if rs == [] then None
    else
      match LastWith(rs[1..], id)
      case Some(later) => Some(later)
      case None => if rs[0].lectureId == id then Some(rs[0]) else None
  }

  /** The record at index `j` is the one `LastWith` picks when no later record shares its lecture id. */
  lemma {:induction false} LastWithIsLatest(rs: seq<ProgressRecord>, j: nat)
    requires j < |rs|
    requires forall k :: j < k < |rs| ==> rs[k].lectureId != rs[j].lectureId
    ensures LastWith(rs, rs[j].lectureId) == Some(rs[j])
    decreases j
  {
    var id := rs[j].lectureId;
    if j == 0 {
      assert forall i :: 0 <= i < |rs[1..]| ==> rs[1..][i].lectureId != id by {
        forall i | 0 <= i < |rs[1..]| ensures rs[1..][i].lectureId != id {
          assert rs[1..][i] == rs[i + 1];
        }
      }
    } else {
      var tail := rs[1..];
      forall k | j - 1 < k < |tail| ensures tail[k].lectureId != tail[j - 1].lectureId {
        assert tail[k] == rs[k + 1];
      }
      LastWithIsLatest(tail, j - 1);
      assert tail[j - 1] == rs[j];
    }
  }

  /** One step of the `forEach` per record, in order, on top of `m`. */
  function HydrateInto(m: ProgressMap, rs: seq<ProgressRecord>): (r: ProgressMap)
    ensures forall id :: id in r <==> id in m || LastWith(rs, id).Some?
    ensures forall id :: id in r && LastWith(rs, id).Some? ==> r[id] == FromRecord(LastWith(rs, id).value)
    ensures forall id :: id in r && LastWith(rs, id).None? ==> r[id] == m[id]
    decreases |rs|
  {
    if rs == [] then m
    else HydrateInto(m[rs[0].lectureId := FromRecord(rs[0])], rs[1..])
  }

  /**
    The map the bulk fetch builds: one entry per lecture id that occurs in the
    fetched records, holding the last such record.
  */
  function Hydrate(rs: seq<ProgressRecord>): (m: ProgressMap)
    ensures forall id :: id in m <==> exists i :: 0 <= i < |rs| && rs[i].lectureId == id
    ensures forall id :: id in m ==> LastWith(rs, id).Some? && m[id] == FromRecord(LastWith(rs, id).value)
  {
    HydrateInto(map[], rs)
  }

  /**
    The last record carrying a lecture id supplies that id's entry, whatever
    earlier records with the same id held.
  */
  lemma LaterRecordWins(rs: seq<ProgressRecord>, j: nat)
    requires j < |rs|
    requires forall k :: j < k < |rs| ==> rs[k].lectureId != rs[j].lectureId
    ensures rs[j].lectureId in Hydrate(rs)
    ensures Hydrate(rs)[rs[j].lectureId] == FromRecord(rs[j])
  {
    LastWithIsLatest(rs, j);
  }

  // ---------------------------------------------------------------------------
  // Optimistic write

  /** Every entry of `m` is still in `m'`, and a completed one is still completed. */
  ghost predicate KeepsCompletion(m: ProgressMap, m': ProgressMap) {
    forall id :: id in m ==> id in m' && (m[id].completed ==> m'[id].completed)
  }

  /**
    The optimistic write of the tracker for lecture `id`: time and duration are
    overwritten, `completed` is OR-merged with what the entry held, the other
    fields of the entry are kept, and no other lecture's entry changes.
  */
  function ApplyOptimistic(m: ProgressMap, id: ObjectId, time: real, duration: real, completed: bool): (r: ProgressMap)
    ensures r.Keys == m.Keys + {id}
    ensures forall k :: k in m && k != id ==> r[k] == m[k]
    ensures r[id].lastWatchedTime == time && r[id].duration == duration
    ensures r[id].completed <==> completed || (id in m && m[id].completed)
    ensures r[id].meta == (if id in m then m[id].meta else None)
    ensures KeepsCompletion(m, r)
  {
    var prev := Get(m, id);
    m[id := Entry(
      if prev.Some? then prev.value.meta else None,
      time,
      duration,
      completed || (prev.Some? && prev.value.completed))]
  }

  /** Repeating the same optimistic write changes nothing more. */
  lemma ApplyOptimisticIdempotent(m: ProgressMap, id: ObjectId, time: real, duration: real, completed: bool)
    ensures
      var once := ApplyOptimistic(m, id, time, duration, completed);
      ApplyOptimistic(once, id, time, duration, completed) == once
  {
  }

  /** Once an entry is completed, no sequence of optimistic writes makes it incomplete again. */
  lemma {:induction false} WritesKeepCompletion(m: ProgressMap, writes: seq<(ObjectId, real, real, bool)>)
    ensures KeepsCompletion(m, ApplyAll(m, writes))
    decreases |writes|
  {
    if writes != [] {
      var (id, t, d, c) := writes[0];
      var m1 := ApplyOptimistic(m, id, t, d, c);
      WritesKeepCompletion(m1, writes[1..]);
    }
  }

  function ApplyAll(m: ProgressMap, writes: seq<(ObjectId, real, real, bool)>): ProgressMap
    decreases |writes|
  {
    if writes == [] then m
    else
      var (id, t, d, c) := writes[0];
      ApplyAll(ApplyOptimistic(m, id, t, d, c), writes[1..])
  }

  // ---------------------------------------------------------------------------
  // Sidebar

  /** `Math.round` over the reals: the nearest integer, halves rounded up. */
  function Round(x: real): (n: int)
    ensures n as real - 0.5 <= x < n as real + 0.5
  {
    (x + 0.5).Floor
  }

  /**
    The percentage the sidebar shows for a lecture: 100 once completed, 0 when
    there is no entry or no positive duration, otherwise the watched fraction
    rounded to the nearest integer.
  */
  function Percent(e: Option<Entry>): (p: int)
    ensures e.Some? && e.value.completed ==> p == 100
    ensures e.None? ==> p == 0
    ensures e.Some? && !e.value.completed && e.value.duration <= 0.0 ==> p == 0
    ensures e.Some? && !e.value.completed && e.value.duration > 0.0 ==>
      p as real - 0.5 <= e.value.lastWatchedTime / e.value.duration * 100.0 < p as real + 0.5
  {
    var ratio := if e.Some? && e.value.duration > 0.0
      then Round(e.value.lastWatchedTime / e.value.duration * 100.0)
      else 0;
    if e.Some? && e.value.completed then 100 else ratio
  }

  /** A position within the video gives a percentage within 0..100. */
  lemma PercentInRange(e: Entry)
    requires 0.0 <= e.lastWatchedTime <= e.duration
    ensures 0 <= Percent(Some(e)) <= 100
  {
  }

  /** Whether the sidebar shows a percentage badge for the lecture. */
  function BadgeShown(e: Option<Entry>): (shown: bool)
    ensures shown <==> e.Some? && Percent(e) >= 0
    ensures e.Some? && e.value.lastWatchedTime >= 0.0 ==> shown
    ensures shown && Percent(e) != 100 ==> !e.value.completed
  {
    var p := Percent(e);
    p > 0 || (e.Some? && p == 0)
  }
}

=== FILE: session.dfy ===
/**
  A viewing session as a sequence of events delivered to the lecture view.

  React's effect scheduling becomes explicit event order: the environment
  delivers element events, lecture selections, resume attempts (React runs the
  resume effect after a selection and after every change of the progress map)
  and the response of the bulk progress fetch. A run collects the syncs and
  seeks the handlers emit, in order.
*/
module Session {
  import opened Wrappers
  import opened VideoProgress
  import opened ProgressMap
  import opened PlaybackTracker

  datatype Event =
    | LoadedMetadata
    | TimeUpdate
    | Pause
    | Ended
    | Resume
    | Select(next: Option<ObjectId>)
    | ProgressFetched(response: Option<seq<ProgressRecord>>)

  /** An event with what the element reports while it is handled. */
  datatype Tick = Tick(event: Event, video: Option<Video>)

  datatype Action = Sync(push: Push) | SeekTo(time: real)

  datatype Trace = Trace(view: View, actions: seq<Action>)

  /** The actions of one step: its sync first, then its seek. */
  function Emitted(s: Step): (a: seq<Action>)
    ensures |a| <= 2
    ensures s.push.None? && s.seek.None? <==> a == []
  {
    (if s.push.Some? then [Sync(s.push.value)] else [])
    + (if s.seek.Some? then [SeekTo(s.seek.value)] else [])
  }

  /** Dispatches one event to its handler. */
  function Apply(v: View, t: Tick): (s: Step)
    ensures !t.event.ProgressFetched? ==> KeepsCompletion(v.progress, s.view.progress)
    ensures !t.event.Select? ==> s.view.lecture == v.lecture
    ensures !t.event.Select? && v.tracker.hasResumed ==> s.view.tracker.hasResumed
    ensures !t.event.Select? && s.seek.Some? ==> !v.tracker.hasResumed && s.view.tracker.hasResumed
    ensures t.event.Select? && t.event.next != v.lecture ==>
      && s.view.lecture == t.event.next
      && !s.view.tracker.hasResumed
      && s.seek == (if t.video.Some? then Some(0.0) else None)
    ensures t.event.Select? && t.event.next == v.lecture ==> s == Step(v, None, None)
  {
    match t.event
    case LoadedMetadata => Step(OnLoadedMetadata(v, t.video), None, None)
    case TimeUpdate => OnTimeUpdate(v, t.video)
    case Pause => OnPauseOrEnded(v, t.video)
    case Ended => OnPauseOrEnded(v, t.video)
    case Resume => TryResume(v, t.video.Some?)
    case Select(next) => SelectLecture(v, next, t.video.Some?)
    case ProgressFetched(response) => Step(OnProgressFetched(v, response), None, None)
  }

  function Run(v: View, ticks: seq<Tick>): Trace
    decreases |ticks|
  {
    if ticks == [] then Trace(v, [])
    else
      var s := Apply(v, ticks[0]);
      var rest := Run(s.view, ticks[1..]);
      Trace(rest.view, Emitted(s) + rest.actions)
  }

  function SeekCount(actions: seq<Action>): nat
    decreases |actions|
  {
    if actions == [] then 0
    else (if actions[0].SeekTo? then 1 else 0) + SeekCount(actions[1..])
  }

  lemma {:induction false} SeekCountConcat(a: seq<Action>, b: seq<Action>)
    ensures SeekCount(a + b) == SeekCount(a) + SeekCount(b)
    decreases |a|
  {
    if a != [] {
      assert (a + b)[0] == a[0];
      assert (a + b)[1..] == a[1..] + b;
      SeekCountConcat(a[1..], b);
    } else {
      assert a + b == b;
    }
  }

  /**
    Sticky completion: between two bulk fetches, no event removes an entry from
    the map or turns a completed entry back to incomplete.
  */
  lemma {:induction false} StickyCompletion(v: View, ticks: seq<Tick>)
    requires forall i :: 0 <= i < |ticks| ==> !ticks[i].event.ProgressFetched?
    ensures KeepsCompletion(v.progress, Run(v, ticks).view.progress)
    decreases |ticks|
  {
    if ticks != [] {
      var s := Apply(v, ticks[0]);
      assert forall i :: 0 <= i < |ticks[1..]| ==> ticks[1..][i] == ticks[i + 1];
      StickyCompletion(s.view, ticks[1..]);
    }
  }

  /**
    Resume-once: while the same lecture stays active, a run seeks at most once,
    and not at all once the lecture has been resumed.
  */
  lemma {:induction false} ResumeSeeksAtMostOnce(v: View, ticks: seq<Tick>)
    requires forall i :: 0 <= i < |ticks| ==> !ticks[i].event.Select?
    ensures SeekCount(Run(v, ticks).actions) <= (if v.tracker.hasResumed then 0 else 1)
    ensures v.tracker.hasResumed ==> Run(v, ticks).view.tracker.hasResumed
    ensures Run(v, ticks).view.lecture == v.lecture
    decreases |ticks|
  {
    if ticks != [] {
      var s := Apply(v, ticks[0]);
      assert forall i :: 0 <= i < |ticks[1..]| ==> ticks[1..][i] == ticks[i + 1];
      ResumeSeeksAtMostOnce(s.view, ticks[1..]);
      var rest := Run(s.view, ticks[1..]);
      SeekCountConcat(Emitted(s), rest.actions);
      var e := Emitted(s);
      if s.seek.Some? {
        if s.push.Some? {
          assert e == [Sync(s.push.value), SeekTo(s.seek.value)];
        } else {
          assert e == [SeekTo(s.seek.value)];
        }
      } else if s.push.Some? {
        assert e == [Sync(s.push.value)];
      }
      assert SeekCount(e) == (if s.seek.Some? then 1 else 0);
    }
  }

  /**
    The walkthrough of a 120 s lecture: pause at 30 s syncs (30, 120, incomplete)
    and shows 25 %; the tick at 115 s sends a silent sync; the tick at 119 s sends
    nothing; the ended event at 119 s syncs a completed record and the sidebar
    shows 100 %.
  */
  lemma WatchToEndScenario(course: ObjectId, lecture: ObjectId)
    ensures
      var v0 := View(course, Some(lecture), Fresh, map[]);
      var ticks := [
        Tick(LoadedMetadata, Some(Video(0.0, 120.0, false))),
        Tick(Pause, Some(Video(30.0, 120.0, false))),
        Tick(TimeUpdate, Some(Video(115.0, 120.0, false))),
        Tick(TimeUpdate, Some(Video(119.0, 120.0, false))),
        Tick(Ended, Some(Video(119.0, 120.0, true)))];
      var r := Run(v0, ticks);
      && r.actions == [
           Sync(Push(course, lecture, 30.0, 120.0, false)),
           Sync(Push(course, lecture, 115.0, 120.0, false)),
           Sync(Push(course, lecture, 119.0, 120.0, true))]
      && Percent(Get(Run(v0, ticks[..2]).view.progress, lecture)) == 25
      && Percent(Get(r.view.progress, lecture)) == 100
  {
    var v0 := View(course, Some(lecture), Fresh, map[]);
    var ticks := [
      Tick(LoadedMetadata, Some(Video(0.0, 120.0, false))),
      Tick(Pause, Some(Video(30.0, 120.0, false))),
      Tick(TimeUpdate, Some(Video(115.0, 120.0, false))),
      Tick(TimeUpdate, Some(Video(119.0, 120.0, false))),
      Tick(Ended, Some(Video(119.0, 120.0, true)))];
    var s1 := Apply(v0, ticks[0]);
    var s2 := Apply(s1.view, ticks[1]);
    assert ThrottleDue(115.0) by {
      assert (115.0).Floor == 115;
    }
    var s3 := Apply(s2.view, ticks[2]);
    assert !ThrottleDue(119.0) by {
      assert (119.0).Floor == 119;
    }
    var s4 := Apply(s3.view, ticks[3]);
    var s5 := Apply(s4.view, ticks[4]);
    assert s1.view.tracker.duration == 120.0 && s1.push.None? && s1.seek.None?;
    assert s2.push == Some(Push(course, lecture, 30.0, 120.0, false));
    assert s3.push == Some(Push(course, lecture, 115.0, 120.0, false));
    assert s4.push.None? && s4.seek.None?;
    assert s5.push == Some(Push(course, lecture, 119.0, 120.0, true));
    assert ticks[4..] == [ticks[4]] && ticks[4..][1..] == [];
    assert Run(s4.view, ticks[4..]) == Trace(s5.view, [Sync(s5.push.value)]);
    assert ticks[3..][1..] == ticks[4..];
    assert Run(s3.view, ticks[3..]) == Trace(s5.view, [Sync(s5.push.value)]);
    assert ticks[2..][1..] == ticks[3..];
    assert Run(s2.view, ticks[2..]) == Trace(s5.view, [Sync(s3.push.value), Sync(s5.push.value)]);
    assert ticks[1..][1..] == ticks[2..];
    assert Run(s1.view, ticks[1..]) == Trace(s5.view, [Sync(s2.push.value), Sync(s3.push.value), Sync(s5.push.value)]);
    assert Run(v0, ticks).actions == [Sync(s2.push.value), Sync(s3.push.value), Sync(s5.push.value)];

    var e2 := s2.view.progress[lecture];
    assert e2.lastWatchedTime / e2.duration * 100.0 == 25.0;
    assert Round(25.0) == 25 by {
      assert (25.0 + 0.5).Floor == 25;
    }
    var prefix := ticks[..2];
    assert prefix[0] == ticks[0] && prefix[1..] == [ticks[1]] && [ticks[1]][1..] == [];
    assert Run(s1.view, prefix[1..]).view == s2.view;
    assert Run(v0, prefix).view == s2.view;
  }

  /**
    Teardown race: the element is rewound to 0 just before the lecture switch,
    yet the flush still records the last captured position, 73 s.
  */
  lemma TeardownScenario(course: ObjectId, a: ObjectId, b: ObjectId)
    requires a != b
    ensures
      var v0 := View(course, Some(a), Fresh, map[]);
      var ticks := [
        Tick(TimeUpdate, Some(Video(73.0, 120.0, false))),
        Tick(Select(Some(b)), Some(Video(0.0, 0.0, false)))];
      var r := Run(v0, ticks);
      && r.actions == [Sync(Push(course, a, 73.0, 0.0, false)), SeekTo(0.0)]
      && r.view.tracker == Fresh
      && a in r.view.progress && r.view.progress[a].lastWatchedTime == 73.0
  {
    var v0 := View(course, Some(a), Fresh, map[]);
    var ticks := [
      Tick(TimeUpdate, Some(Video(73.0, 120.0, false))),
      Tick(Select(Some(b)), Some(Video(0.0, 0.0, false)))];
    assert !ThrottleDue(73.0) by {
      assert (73.0).Floor == 73;
    }
    var s1 := Apply(v0, ticks[0]);
    assert s1.push.None? && s1.seek.None? && s1.view.tracker.lastPlayedTime == 73.0;
    var s2 := Apply(s1.view, ticks[1]);
    assert s2.push == Some(Push(course, a, 73.0, 0.0, false));
    assert ticks[1..] == [ticks[1]] && ticks[1..][1..] == [];
    assert Run(s1.view, ticks[1..]) == Trace(s2.view, [Sync(s2.push.value), SeekTo(0.0)]);
  }
}

=== FILE: video_progress.dfy ===
/**
  The persisted playback-progress record (`videoProgressSchema`).

  A record carries the identity triple (user, lecture, course), which the
  schema marks as required, the three mutable progress fields, each with a
  default, and the two timestamps that the `timestamps` option maintains.
  The schema declares no index on the identity triple, so the collection is
  a plain sequence of records in which a triple may occur more than once.
*/
module VideoProgress {
  import opened Wrappers

  /** Mongo object ids, in the hexadecimal string form the client sees. */
  type ObjectId = string

  /** Milliseconds since the epoch, as stored by the `timestamps` option. */
  type Timestamp = int

  datatype ProgressRecord = ProgressRecord(
    recordId: ObjectId,
    userId: ObjectId,
    lectureId: ObjectId,
    courseId: ObjectId,
    lastWatchedTime: real,
    duration: real,
    completed: bool,
    createdAt: Timestamp,
    updatedAt: Timestamp)

  /** The fields a caller hands to the model when creating a record; `None` means the field was left out. */
  datatype Draft = Draft(
    userId: Option<ObjectId>,
    lectureId: Option<ObjectId>,
    courseId: Option<ObjectId>,
    lastWatchedTime: Option<real>,
    duration: Option<real>,
    completed: Option<bool>)

  /** The paths the schema declares `required`. */
  datatype RequiredPath = UserIdPath | LectureIdPath | CourseIdPath

  /** What the draft supplies for a required path. */
  function Supplied(d: Draft, p: RequiredPath): Option<ObjectId> {
    match p
    case UserIdPath => d.userId
    case LectureIdPath => d.lectureId
    case CourseIdPath => d.courseId
  }

  const DefaultLastWatchedTime: real := 0.0
  const DefaultDuration: real := 0.0
  const DefaultCompleted: bool := false

  /**
    Validates a draft against the schema and builds the record the store would
    hold. Validation reports every missing required path at once; the store
    supplies the document id and the creation instant.
  */
  function Create(recordId: ObjectId, d: Draft, now: Timestamp): (r: Result<ProgressRecord, set<RequiredPath>>)
    ensures r.Success? <==> d.userId.Some? && d.lectureId.Some? && d.courseId.Some?
    ensures r.Failure? ==> r.error != {} && forall p :: p in r.error <==> Supplied(d, p).None?
    ensures r.Success? ==>
      && r.value.recordId == recordId
      && Some(r.value.userId) == d.userId
      && Some(r.value.lectureId) == d.lectureId
      && Some(r.value.courseId) == d.courseId
    ensures r.Success? && d.lastWatchedTime.None? ==> r.value.lastWatchedTime == 0.0
    ensures r.Success? && d.duration.None? ==> r.value.duration == 0.0
    ensures r.Success? && d.completed.None? ==> !r.value.completed
    ensures r.Success? ==>
      && (d.lastWatchedTime.Some? ==> r.value.lastWatchedTime == d.lastWatchedTime.value)
      && (d.duration.Some? ==> r.value.duration == d.duration.value)
      && (d.completed.Some? ==> r.value.completed == d.completed.value)
    ensures r.Success? ==> r.value.createdAt == now && r.value.updatedAt == now
  {
    var missing :=
      (if d.userId.None? then {UserIdPath} else {})
      + (if d.lectureId.None? then {LectureIdPath} else {})
      + (if d.courseId.None? then {CourseIdPath} else {});
    if missing != {} then
      Failure(missing)
    else
      Success(ProgressRecord(
        recordId, d.userId.value, d.lectureId.value, d.courseId.value,
        d.lastWatchedTime.GetOr(DefaultLastWatchedTime),
        d.duration.GetOr(DefaultDuration),
        d.completed.GetOr(DefaultCompleted),
        now, now))
  }

  /** The collection: records in insertion order, with no uniqueness on the identity triple. */
  type Store = seq<ProgressRecord>

  predicate HasTriple(r: ProgressRecord, userId: ObjectId, courseId: ObjectId, lectureId: ObjectId) {
    r.userId == userId && r.courseId == courseId && r.lectureId == lectureId
  }

  /** How many records of the store carry the given identity triple. */
  function CountTriple(s: Store, userId: ObjectId, courseId: ObjectId, lectureId: ObjectId): (n: nat)
    ensures n <= |s|
    ensures n == 0 <==> forall i :: 0 <= i < |s| ==> !HasTriple(s[i], userId, courseId, lectureId)
  {
    if s == [] then 0
    else (if HasTriple(s[0], userId, courseId, lectureId) then 1 else 0) + CountTriple(s[1..], userId, courseId, lectureId)
  }

  /** Creating a document appends it; a draft the schema rejects leaves the store as it was. */
  function Insert(s: Store, recordId: ObjectId, d: Draft, now: Timestamp): (r: Result<Store, set<RequiredPath>>)
    ensures r.Success? <==> Create(recordId, d, now).Success?
    ensures r.Failure? ==> r.error == Create(recordId, d, now).error
    ensures r.Success? ==>
      && |r.value| == |s| + 1
      && r.value[..|s|] == s
      && Some(r.value[|s|].lectureId) == d.lectureId
      && Some(r.value[|s|].userId) == d.userId
      && Some(r.value[|s|].courseId) == d.courseId
    ensures r.Success? ==> r.value[|s|] == Create(recordId, d, now).value
  {
    match Create(recordId, d, now)
    case Failure(e) => Failure(e)
    case Success(rec) => Success(s + [rec])
  }

  lemma {:induction false} CountTripleAppend(s: Store, r: ProgressRecord, u: ObjectId, c: ObjectId, l: ObjectId)
    ensures CountTriple(s + [r], u, c, l) == CountTriple(s, u, c, l) + (if HasTriple(r, u, c, l) then 1 else 0)
    decreases |s|
  {
    if s == [] {
      assert [r][1..] == [];
    } else {
      assert (s + [r])[1..] == s[1..] + [r];
      CountTripleAppend(s[1..], r, u, c, l);
    }
  }

  /**
    With no unique index on the identity triple, creating two documents for the
    same (user, course, lecture) both succeed and the store then holds two more
    records with that triple.
  */
  lemma NoUniqueIndex(s: Store, id1: ObjectId, id2: ObjectId, d: Draft, now1: Timestamp, now2: Timestamp)
    requires d.userId.Some? && d.lectureId.Some? && d.courseId.Some?
    ensures Insert(s, id1, d, now1).Success?
    ensures Insert(Insert(s, id1, d, now1).value, id2, d, now2).Success?
    ensures
      var u, c, l := d.userId.value, d.courseId.value, d.lectureId.value;
      CountTriple(Insert(Insert(s, id1, d, now1).value, id2, d, now2).value, u, c, l)
        == CountTriple(s, u, c, l) + 2
  {
    var u, c, l := d.userId.value, d.courseId.value, d.lectureId.value;
    var s1 := Insert(s, id1, d, now1).value;
    var s2 := Insert(s1, id2, d, now2).value;
    assert s1 == s + [s1[|s|]];
    assert s2 == s1 + [s2[|s1|]];
    CountTripleAppend(s, s1[|s|], u, c, l);
    CountTripleAppend(s1, s2[|s1|], u, c, l);
  }
}

=== FILE: wrappers.dfy ===
/** Option and Result datatypes shared by the other modules. */
module Wrappers {

  /** A value that may be absent: a missing map key, an element that is not mounted. */
  datatype Option<+T> = None | Some(value: T) {

    /** The wrapped value, or `default` when there is none. */
    function GetOr(default: T): T {
      match this
      case Some(v) => v
      case None => default
    }
  }

  /** The outcome of an operation that can be rejected with an error value. */
  datatype Result<+R, +E> = Success(value: R) | Failure(error: E)
}
